=== FILE: README.md ===
# gocacheprog in Dafny

This project models the core of `gocacheprog`, a helper process for the Go toolchain's external cache protocol. The toolchain writes JSON requests (`get`, `put`, `close`) to the helper's standard input. The helper answers each one on standard output. The repository has two backends; the command-line entry point wires only the disk store, and the S3 store is a library package it never reaches:

- **Disk store** (`cache/disk/cache.go`): the index record for action key `a` is stored at `<dir>/<%02x of a[0]>/<%x of a>-a`. The object bytes for output key `o` are stored at `<dir>/<%02x of o[0]>/<%x of o>-o`.
- **S3 store** (`cache/s3/cache.go`): uses the same layout without the root directory. A base prefix is joined in front of each key on every access to the bucket.
- **Session engine** (`protocol/handle.go`, `Run`): writes the handshake, frames the request stream and writes one response per request.

Files and modules:

| file | module | contents |
|---|---|---|
| `types.dfy` | `Types` | `byte`, `int64`, `Option`, `Result` |
| `hex.dfy` | `Hex` | `%02x` / `%x` rendering and a decoder that inverts it |
| `layout.dfy` | `Layout` | `filepath.Join` of a clean directory, and the sharded relative name |
| `records.dfy` | `Records` | the index record `meta{o,s,t}` and what a file or object can hold |
| `protocol.dfy` | `Protocol` | requests, responses, framing, handler dispatch, `Run` |
| `disk.dfy` | `Disk` | the disk store over a path → entry map |
| `s3.dfy` | `S3` | the S3 store over a key → entry map |
| `session.dfy` | `DiskSession` | a whole session against the disk store |

How the outside world enters the model:

- **File system and bucket.** Each is a map from name to `Entry`. An `Entry` is raw object bytes, an encoded index record, or something that does not decode. Directories are implicit.
- **Failures.** Each handler call gets an `Env`: the clock (`time.Now().Unix()`) plus a record saying which system calls or S3 requests fail on that call. A missing index file and a missing S3 key come from the map itself. An S3 request can also fail with any AWS error code, or with no code at all.
- **Panics.** Go panics on `id[0]` when a key is empty. This is modelled as a `Panicked` outcome that keeps the state reached so far. `Run` then ends with `Crashed`.
- **Concurrency.** The engine starts one goroutine per request and writes responses under a mutex, in completion order. The model runs the handlers one after another, in request order. That is one of the orders the source allows; callers match responses by `ID`.

Behaviour worth knowing, all proved:

- A missing index is a clean miss. Every other Get failure (open, read, decode; on S3 any error code other than `NoSuchKey`) returns an error and also sets `Miss`.
- The disk Put always creates the object file, even when no body is announced, and writes it before the index. When the object step fails, the index is left as it was.
- The S3 Put discards the object upload's error. A Put whose object upload failed still succeeds, and a later Get reports a hit for an object that is not in the bucket (`S3.LostObjectStillHits`).
- Neither Get sets `OutputID`. The S3 Get sets no `DiskPath`. The S3 Put returns the *relative* object key as `DiskPath`.
- A corrupt index record sets both `Err` and `Miss`.

## Model

| member | source | states |
|---|---|---|
| Hex.Byte2 | cache/disk/cache.go:136 | `%02x` of a byte is exactly two lower-case hex digits, and they read back as that byte |
| Hex.Encode | cache/disk/cache.go:136 | `%x` of a byte slice has length 2·n and consists only of lower-case hex digits |
| Hex.EncodeStartsWithFirstByte | cache/disk/cache.go:136 | the shard directory name (`%02x` of `id[0]`) is the first two characters of the full hex name |
| Hex.DecodeEncode | cache/disk/cache.go:136 | decoding the hex name of a key gives back the key |
| Hex.EncodeDecode | cache/disk/cache.go:136 | every successfully decoded hex string is the rendering of what it decodes to (the two are inverse) |
| Hex.EncodeInjective | cache/disk/cache.go:136 | distinct keys have distinct hex names |
| Layout.RelName | cache/s3/cache.go:160-163 | the relative name is `<first two hex chars>/<full hex>-<suffix>`, of length 2·\|id\|+5; it needs a non-empty key |
| Layout.JoinInjective | cache/disk/cache.go:136 | joining a root in front never merges two distinct relative names |
| Layout.RelNameInjective | cache/s3/cache.go:152-163 | two relative names are equal only for the same key in the same role |
| Layout.FileNameInjective | cache/disk/cache.go:135-137 | under one root, two full names are equal if and only if they have the same key and the same role |
| Layout.ActionAndObjectDisjoint | cache/disk/cache.go:58-60 | an action path never equals an object path, whatever the two keys |
| Disk.PathLayout | cache/disk/cache.go:135-137 | `ActionPath`/`ObjectPath` (via `FileName`, lines 58-60 and 92-94) put a key at `<dir>/<first two hex digits>/<hex>-a` or `-o`, and an action path never equals an object path |
| Disk.HandleGet | cache/disk/cache.go:62-90 | Get never writes; it panics on an empty action key or on a stored record with an empty output key; a missing index with no other open error is a miss with no error; it errors exactly when open fails with an error other than "does not exist", or the index exists and read or decode fails; an error always sets `Miss`; a hit sets the object path, size and time from the record and nothing else |
| Disk.HandlePut | cache/disk/cache.go:96-132 | only the object path and the action path can change; Put succeeds exactly when every step succeeds, and then stores the body (empty when none is announced) and the record `{ObjectID, BodySize, now}` and sets `DiskPath` to the object path; a failure leaves the response untouched; the index changes only after the object holds the full body; once the object step succeeds the object keeps the full body whatever happens next (no cleanup): a failed index mkdir or open leaves the index as it was, a write failing partway leaves it corrupt, and a write that completes but fails to close leaves the full record in place while Put reports an error; a failed object mkdir or create leaves the object file as it was, and a failed copy leaves it holding a prefix of the body; it panics on an empty ObjectID before touching anything, and on an empty ActionID after the object is written |
| Disk.Handler | cache/disk/cache.go:30-56 | close and every command outside `Disk.KnownCommands` (`[get, put, close]`, lines 30-32) return nil and change nothing; no command changes the response's ID or error text |
| Disk.SessionHandlerKeepsIdAndErr | cache/disk/cache.go:34-56 | the disk backend, seen by the engine, never changes the response's ID or `Err` |
| Disk.PutThenGet | cache/disk/cache.go:62-132 | a fault-free Put then a Get of the same action key: the Put returns the object path, the object file holds the stored body, and the Get is a hit with the Put's size, clock and object path |
| Disk.LaterPutWins | cache/disk/cache.go:113-130 | a second Put to the same action key replaces the index record, and the first Put's object stays in place |
| Disk.FailedObjectStepKeepsIndex | cache/disk/cache.go:97-111 | if the object's mkdir, create or copy fails, Put reports an error, leaves the response alone, and leaves the index file as it was; a failed mkdir or create also leaves the object file as it was, and a failed copy leaves it truncated to a prefix of the body |
| Disk.FailedCloseStillHits | cache/disk/cache.go:126-129 | an index write that completes but whose close fails makes Put report an error and leave the response alone, yet a later fault-free Get of that key hits with the Put's object path, size and time |
| S3.KeyLayout | cache/s3/cache.go:152-163 | `S3.ActionPath`/`S3.ObjectPath` are the relative names `<first two hex digits>/<hex>-a` or `-o` with no root, and after `S3.Key` joins the base prefix an action key never equals an object key |
| S3.GetFile | cache/s3/cache.go:165-170 | a reachable GET of `S3.Key(baseDir, path)` finds exactly the keys in the bucket, and answers `NoSuchKey` for every other key |
| S3.HandleGet | cache/s3/cache.go:123-150 | Get never writes; it panics only on an empty action key; a `NoSuchKey` answer is a miss with no error; it errors exactly when it is neither a not-found nor a hit; an error always sets `Miss`; a hit sets only size and time |
| S3.HandlePut | cache/s3/cache.go:102-121 | the outcome depends only on the index upload; the object is uploaded (through `S3.PutFile`, lines 172-179, under the base prefix) only when a body is announced: a successful upload stores the body at the object key, a failed one changes nothing; success stores `{ObjectID, BodySize, now}` at the action key and sets the relative object key as `DiskPath`; a failed index upload leaves the action key as it was; no other key changes; it panics on an empty ObjectID before any upload, and on an empty ActionID after the object upload, with an announced body that uploaded already stored |
| S3.Handler | cache/s3/cache.go:68-94 | close and every command outside `S3.KnownCommands` (`[get, put, close]`, lines 88-90) return nil and change nothing; no command changes the response's ID or error text |
| S3.SessionHandlerKeepsIdAndErr | cache/s3/cache.go:68-86 | the S3 backend, seen by the engine, never changes the response's ID or `Err` |
| S3.PutThenGet | cache/s3/cache.go:102-150 | a Put whose index upload succeeds, then a fault-free Get of the same key, is a hit with the Put's size and clock and no path or output ID; when a body was announced and its upload succeeded, the object key holds the body |
| S3.LostObjectStillHits | cache/s3/cache.go:104-106 | for any bucket without the object, a Put whose object upload fails still succeeds, the object key stays absent, and a following Get reports a hit |
| Protocol.NextRequest | protocol/handle.go:39-56 | a clean stop happens exactly at end of input; a decoded request uses two values exactly when it is a put with `BodySize > 0`, and the second is a byte array of exactly `BodySize` bytes |
| Protocol.Frame | protocol/handle.go:38-56 | every framed request carries a body exactly when announced and of the announced size; there are never more requests than values |
| Protocol.FrameEncode | protocol/handle.go:38-56 | framing the values a client writes for well-framed requests recovers exactly those requests and then a clean EOF |
| Protocol.FrameCleanIsEncoding | protocol/handle.go:38-46 | a stream that frames to a clean EOF is exactly the client encoding of the requests framed from it |
| Protocol.FrameAppendClean | protocol/handle.go:38-56 | framing a clean prefix and then the rest is the same as framing the whole stream |
| Protocol.FrameStopsAtFatal | protocol/handle.go:40-54 | after a decode error or a bad body size, nothing written later is ever decoded |
| Protocol.BadBodySizeEndsSession | protocol/handle.go:52-54 | a put whose body length differs from `BodySize` ends the session with "bad body size", after the requests before it and before any request after it |
| Protocol.Serve | protocol/handle.go:57-68 | each framed request gets exactly one response (`Protocol.Respond` copies the handler's error message into `Err`), made from one handler call starting from a response that carries only its ID; backend state is threaded through in order; a panic stops all later responses |
| Protocol.Run | protocol/handle.go:18-70 | a `KnownCommands` error, or a failed handshake write, returns an error with nothing written and no request handled; otherwise the handshake is the first output; with no handler panic, a clean end of input returns nil and a framing error returns that error, and conversely a nil return means the input was exactly a client encoding; in this sequential model every framed request is answered before `Run` returns |
| Protocol.ResponsesEchoRequests | protocol/handle.go:57-63 | for a handler that leaves ID and `Err` alone, each response echoes its request's ID, and its `Err` is the handler's error message or empty |
| DiskSession.DiskPutThenGetSession | protocol/handle.go:23-63 | a client writing a put then a get of the same key to the disk backend receives the handshake `[get, put, close]`, the put's object path, and a hit with the put's size and time; the session returns nil |

## Left out

- Goroutine-per-request dispatch and the mutex around response writes (protocol/handle.go:57-68). Handlers run one after another in request order, one of the orders the source allows.
- `Run` returns, on EOF or on an error, without waiting for handlers still running. On EOF `main` returns and on an error it panics (cmd/gocacheprog/main.go:36-38, 50-54), so in both cases a real process can exit before it writes their responses. The sequential model answers every framed request before `Run` ends, so this loss is not modelled.
- Errors from writing a response (protocol/handle.go:65-66) are discarded by the source. They are not modelled: every response after the handshake is taken as written.
- A partially written handshake is not modelled: a failed handshake write means nothing was written.
- Byte-level JSON. A value is modelled as a request, a byte array, or malformed. An index record is an `Entry`. A number outside `int64` counts as malformed.
- `json.Marshal` of the index record. It cannot fail for this record type on the disk store, and the S3 store overwrites its error unread.
- `filepath.Clean` beyond the cases `Layout.Join` covers. The root directory and the base prefix are taken to be already clean.
- Directories. They are implicit. `MkdirAll` appears only as a step that may fail, and opening a directory as a file is not modelled.
- Real system calls and AWS SDK calls. They become map lookups and map updates, plus per-call failure parameters. An upload either stores the whole entry or changes nothing.
- S3 session and credential construction (cache/s3/cache.go:44-66). `NewCache` never sets `baseDir`, so in the source it is always empty; the model keeps it as a parameter.
- Logging (`log.Printf`). It has no effect on responses.
- `context.Context`. No cancellation is generated anywhere in the core.
- Command-line flag parsing and the wiring of the disk store (cmd/gocacheprog/main.go, which accepts only `disk` as the cache kind). This is process plumbing.
- Crash consistency, and concurrent Puts to the same key on the disk store. The source has no locking or atomic rename, so these lie outside a sequential model.

=== FILE: disk.dfy ===
/**
 The local disk store. Index records live at `<dir>/<xx>/<hex(actionId)>-a`
 and object bytes at `<dir>/<xx>/<hex(objectId)>-o`. The file system is a map
 from path to entry (directories are implicit); which system calls fail on a
 given call, and the clock, are parameters.
 */
module Disk {
  import opened Types
  import opened Protocol
  import opened Records
  import Layout
  import Hex

  /** The store, configured by its root directory. */
  datatype DiskCache = DiskCache(dir: string)

  /** The files under the root. */
  type Fs = map<string, Entry>

  /**
   Which steps of a Get fail with an error other than "does not exist"; an
   open can fail that way whether or not the index file exists (a shard
   directory that is unreadable, or that is a regular file).
   */
  datatype GetFaults = GetFaults(openFails: bool, readFails: bool)

  /**
   How writing the index file goes: it fails before writing, fails after
   truncating the file and writing part of it, or writes all of it and then
   fails to close it.
   */
  datatype WriteFault = WriteOk | WriteOpenFails | WriteFailsPartway | WriteCloseFails

  /**
   Which steps of a Put fail: creating the object's shard directory, creating
   the object file, copying the body (after the given number of bytes),
   creating the index's shard directory, writing the index file.
   */
  datatype PutFaults = PutFaults(
    mkdirObject: bool,
    createObject: bool,
    copyFailsAfter: Option<nat>,
    mkdirAction: bool,
    writeIndex: WriteFault)

  /** Everything outside the store that one handler call observes. */
  datatype Env = Env(now: int64, get: GetFaults, put: PutFaults)

  const NoGetFaults: GetFaults := GetFaults(false, false)
  const NoPutFaults: PutFaults := PutFaults(false, false, None, false, WriteOk)

  /** The commands this backend answers, in the order it advertises them. */
  function KnownCommands(): Result<seq<string>, string> {
    Success([CmdGet, CmdPut, CmdClose])
  }

  function FileName(c: DiskCache, id: seq<byte>, role: Layout.Role): string
    requires |id| > 0
  {
    Layout.Join(c.dir, Layout.RelName(id, role))
  }

  function ActionPath(c: DiskCache, id: seq<byte>): string
    requires |id| > 0
  {
    FileName(c, id, Layout.Action)
  }

  function ObjectPath(c: DiskCache, id: seq<byte>): string
    requires |id| > 0
  {
    FileName(c, id, Layout.Object)
  }

  /**
   Both names of a key live in the same shard directory under the root, the
   first two hex digits of the key, and differ only in their suffix; so an
   action path never names an object.
   */
  lemma PathLayout(c: DiskCache, a: seq<byte>, o: seq<byte>)
    requires |a| > 0 && |o| > 0
    ensures ActionPath(c, a) == Layout.Join(c.dir, Hex.Encode(a)[..2] + "/" + Hex.Encode(a) + "-a")
    ensures ObjectPath(c, o) == Layout.Join(c.dir, Hex.Encode(o)[..2] + "/" + Hex.Encode(o) + "-o")
    ensures ActionPath(c, a) != ObjectPath(c, o)
  {
    Layout.ActionAndObjectDisjoint(c.dir, a, o);
  }

  /** The error a failing system call reports. */
  function IoError(op: string, path: string): string {
    op + " " + path + ": input/output error"
  }

  /**
   Looks up the index record of the request's action key. A missing index
   file is a clean miss; every other failure is reported and also forces a
   miss; a readable record fills in the object's path, size and time.
   */
  function HandleGet(c: DiskCache, fs: Fs, f: GetFaults, req: ProgRequest, resp: ProgResponse): (out: HandlerOutcome<Fs>)
    ensures out.state == fs
    ensures out.Panicked? <==>
      || |req.actionId| == 0
      || (var p := ActionPath(c, req.actionId);
          p in fs && !f.openFails && !f.readFails && fs[p].Record? && |fs[p].meta.outputId| == 0)
    ensures |req.actionId| > 0 && !f.openFails && ActionPath(c, req.actionId) !in fs ==>
      out == Returned(fs, resp.(miss := true), None)
    ensures out.Returned? && out.err.Some? <==>
      |req.actionId| > 0
      && (f.openFails
          || (ActionPath(c, req.actionId) in fs && (f.readFails || !fs[ActionPath(c, req.actionId)].Record?)))
    ensures out.Returned? && out.err.Some? ==> out.resp == resp.(miss := true)
    ensures out.Returned? && out.err.None? && ActionPath(c, req.actionId) in fs ==>
      var m := fs[ActionPath(c, req.actionId)].meta;
      && fs[ActionPath(c, req.actionId)].Record?
      && |m.outputId| > 0
      && out.resp == resp.(diskPath := ObjectPath(c, m.outputId), size := m.size, time := Some(m.time))
  {
    if |req.actionId| == 0 then Panicked(fs)
    else
      var p := ActionPath(c, req.actionId);
      if f.openFails then Returned(fs, resp.(miss := true), Some(IoError("open", p)))
      else if p !in fs then Returned(fs, resp.(miss := true), None)
      else if f.readFails then Returned(fs, resp.(miss := true), Some(IoError("read", p)))
      else match DecodeMeta(fs[p])
        case None => Returned(fs, resp.(miss := true), Some("invalid index record"))
        case Some(m) =>
          if |m.outputId| == 0 then Panicked(fs)
          else Returned(fs, resp.(diskPath := ObjectPath(c, m.outputId), size := m.size, time := Some(m.time)), None)
  }

  /** The object bytes a Put stores: the body when one is announced, otherwise an empty file. */
  function StoredBody(req: ProgRequest): seq<byte> {
    if req.bodySize > 0 then req.body else []
  }

  /** A path a Put of `req` is allowed to write: the object file or the index file. */
  predicate PutTarget(c: DiskCache, req: ProgRequest, p: string) {
    || (|req.objectId| > 0 && p == ObjectPath(c, req.objectId))
    || (|req.actionId| > 0 && p == ActionPath(c, req.actionId))
  }

  /** The object step of a Put succeeds: its directory, its creation and (when a body is announced) the copy. */
  predicate ObjectStepSucceeds(f: PutFaults, req: ProgRequest) {
    !f.mkdirObject && !f.createObject && (req.bodySize > 0 ==> f.copyFailsAfter.None?)
  }

  /** A Put whose steps all succeed. */
  predicate PutSucceeds(f: PutFaults, req: ProgRequest) {
    && |req.objectId| > 0 && |req.actionId| > 0
    && ObjectStepSucceeds(f, req)
    && !f.mkdirAction && f.writeIndex == WriteOk
  }

  /**
   Writes the object file (created even when no body is announced), then the
   index record `{ObjectID, BodySize, now}`. The first failing step returns
   its error at once, with no cleanup of what was already written.
   */
  function HandlePut(c: DiskCache, fs: Fs, now: int64, f: PutFaults, req: ProgRequest, resp: ProgResponse): (out: HandlerOutcome<Fs>)
    ensures forall p :: !PutTarget(c, req, p) ==> SameAt(fs, out.state, p)
    ensures out.Returned? && out.err.None? <==> PutSucceeds(f, req)
    ensures PutSucceeds(f, req) ==>
      && out.state == fs[ObjectPath(c, req.objectId) := Blob(StoredBody(req))]
                        [ActionPath(c, req.actionId) := Record(Meta(req.objectId, req.bodySize, now))]
      && out.resp == resp.(diskPath := ObjectPath(c, req.objectId))
    ensures out.Returned? && out.err.Some? ==> out.resp == resp
    ensures |req.objectId| > 0 && |req.actionId| > 0 && !SameAt(fs, out.state, ActionPath(c, req.actionId)) ==>
      ObjectPath(c, req.objectId) in out.state && out.state[ObjectPath(c, req.objectId)] == Blob(StoredBody(req))
    ensures |req.objectId| == 0 ==> out == Panicked(fs)
    ensures |req.objectId| > 0 && |req.actionId| == 0 && ObjectStepSucceeds(f, req) ==> out.Panicked?
    ensures |req.objectId| > 0 && ObjectStepSucceeds(f, req) ==>
      ObjectPath(c, req.objectId) in out.state && out.state[ObjectPath(c, req.objectId)] == Blob(StoredBody(req))
    ensures |req.objectId| > 0 && |req.actionId| > 0 && ObjectStepSucceeds(f, req)
            && (f.mkdirAction || f.writeIndex == WriteOpenFails) ==>
      SameAt(fs, out.state, ActionPath(c, req.actionId))
    ensures |req.objectId| > 0 && |req.actionId| > 0 && ObjectStepSucceeds(f, req)
            && !f.mkdirAction && f.writeIndex == WriteFailsPartway ==>
      ActionPath(c, req.actionId) in out.state && out.state[ActionPath(c, req.actionId)] == Corrupt
    ensures |req.objectId| > 0 && |req.actionId| > 0 && ObjectStepSucceeds(f, req)
            && !f.mkdirAction && f.writeIndex == WriteCloseFails ==>
      && out.Returned? && out.err.Some?
      && ActionPath(c, req.actionId) in out.state
      && out.state[ActionPath(c, req.actionId)] == Record(Meta(req.objectId, req.bodySize, now))
    ensures |req.objectId| > 0 && (f.mkdirObject || f.createObject) ==>
      SameAt(fs, out.state, ObjectPath(c, req.objectId))
    ensures |req.objectId| > 0 && !f.mkdirObject && !f.createObject && req.bodySize > 0 && f.copyFailsAfter.Some? ==>
      && ObjectPath(c, req.objectId) in out.state
      && out.state[ObjectPath(c, req.objectId)].Blob?
      && out.state[ObjectPath(c, req.objectId)].data <= req.body
  {
    Layout.ActionAndObjectDisjoint(c.dir, req.actionId, req.objectId);
    if |req.objectId| == 0 then Panicked(fs)
    else
      var name := ObjectPath(c, req.objectId);
      if f.mkdirObject then Returned(fs, resp, Some(IoError("mkdir", name)))
      else if f.createObject then Returned(fs, resp, Some(IoError("open", name)))
      else if req.bodySize > 0 && f.copyFailsAfter.Some? then
        var k := if f.copyFailsAfter.value < |req.body| then f.copyFailsAfter.value else |req.body|;
        Returned(fs[name := Blob(req.body[..k])], resp, Some(IoError("write", name)))
      else
        var written := fs[name := Blob(StoredBody(req))];
        if |req.actionId| == 0 then Panicked(written)
        else
          var index := ActionPath(c, req.actionId);
          if f.mkdirAction then Returned(written, resp, Some(IoError("mkdir", index)))
          else match f.writeIndex
            case WriteOpenFails => Returned(written, resp, Some(IoError("open", index)))
            case WriteFailsPartway => Returned(written[index := Corrupt], resp, Some(IoError("write", index)))
            case WriteCloseFails =>
              Returned(written[index := Record(Meta(req.objectId, req.bodySize, now))], resp, Some(IoError("close", index)))
            case WriteOk =>
              Returned(written[index := Record(Meta(req.objectId, req.bodySize, now))], resp.(diskPath := name), None)
  }

  /**
   Dispatches on the command. Close and any command this backend does not
   advertise return nil and leave the response alone; Get and Put never touch
   the response's ID or error text.
   */
  function Handler(c: DiskCache, fs: Fs, env: Env, req: ProgRequest, resp: ProgResponse): (out: HandlerOutcome<Fs>)
    ensures req.command == CmdClose || req.command !in KnownCommands().value ==> out == Returned(fs, resp, None)
    ensures out.Returned? ==> out.resp.id == resp.id && out.resp.err == resp.err
  {
    if req.command == CmdClose then Returned(fs, resp, None)
    else if req.command == CmdGet then HandleGet(c, fs, env.get, req, resp)
    else if req.command == CmdPut then HandlePut(c, fs, env.now, env.put, req, resp)
    else Returned(fs, resp, None)
  }

  /** The backend as the session engine sees it; `envs(n)` is what the n-th call observes. */
  function SessionHandler(c: DiskCache, envs: nat -> Env): Handler<Fs> {
    (fs: Fs, n: nat, req: ProgRequest, resp: ProgResponse) => Handler(c, fs, envs(n), req, resp)
  }

  /** So every response of a disk-backed session echoes its request's ID and carries only the handler's error. */
  lemma SessionHandlerKeepsIdAndErr(c: DiskCache, envs: nat -> Env)
    ensures KeepsIdAndErr(SessionHandler(c, envs))
  {
    forall fs: Fs, n: nat, req: ProgRequest, resp: ProgResponse
      ensures SessionHandler(c, envs)(fs, n, req, resp).Returned? ==>
        SessionHandler(c, envs)(fs, n, req, resp).resp.id == resp.id
        && SessionHandler(c, envs)(fs, n, req, resp).resp.err == resp.err
    {
      var _ := Handler(c, fs, envs(n), req, resp);
    }
  }

  /**
   Round trip: a successful Put followed by a Get of the same action key is a
   hit that reports the Put's object path, body size and clock, and the
   object file holds exactly the stored body.
   */
  lemma PutThenGet(c: DiskCache, fs: Fs, putEnv: Env, getEnv: Env, put: ProgRequest, get: ProgRequest, resp1: ProgResponse, resp2: ProgResponse)
    requires put.command == CmdPut && get.command == CmdGet
    requires |put.objectId| > 0 && get.actionId == put.actionId && |put.actionId| > 0
    requires putEnv.put == NoPutFaults && getEnv.get == NoGetFaults
    ensures var p := Handler(c, fs, putEnv, put, resp1);
      && p == Returned(p.state, resp1.(diskPath := ObjectPath(c, put.objectId)), None)
      && p.state[ObjectPath(c, put.objectId)] == Blob(StoredBody(put))
      && Handler(c, p.state, getEnv, get, resp2)
         == Returned(p.state, resp2.(diskPath := ObjectPath(c, put.objectId), size := put.bodySize, time := Some(putEnv.now)), None)
  {
    Layout.ActionAndObjectDisjoint(c.dir, put.actionId, put.objectId);
  }

  /**
   A later successful Put to the same action key replaces the index record
   (last write wins) and leaves the earlier Put's object file in place.
   */
  lemma LaterPutWins(c: DiskCache, fs: Fs, now1: int64, now2: int64, p1: ProgRequest, p2: ProgRequest, resp: ProgResponse)
    requires PutSucceeds(NoPutFaults, p1) && PutSucceeds(NoPutFaults, p2)
    requires p1.actionId == p2.actionId && p1.objectId != p2.objectId
    ensures var s1 := HandlePut(c, fs, now1, NoPutFaults, p1, resp).state;
      var s2 := HandlePut(c, s1, now2, NoPutFaults, p2, resp).state;
      && s2[ActionPath(c, p1.actionId)] == Record(Meta(p2.objectId, p2.bodySize, now2))
      && s2[ObjectPath(c, p1.objectId)] == Blob(StoredBody(p1))
  {
    Layout.ActionAndObjectDisjoint(c.dir, p1.actionId, p1.objectId);
    Layout.FileNameInjective(c.dir, p1.objectId, Layout.Object, p2.objectId, Layout.Object);
    Layout.ActionAndObjectDisjoint(c.dir, p2.actionId, p2.objectId);
  }

  /**
   When the object step fails (its directory, its creation, or the body copy),
   the Put reports an error and the index file is exactly as it was. A failed
   directory or creation leaves the object file as it was too; a failed copy
   leaves it truncated to a prefix of the body, whatever it held before.
   */
  lemma FailedObjectStepKeepsIndex(c: DiskCache, fs: Fs, now: int64, f: PutFaults, req: ProgRequest, resp: ProgResponse)
    requires |req.objectId| > 0 && |req.actionId| > 0
    requires f.mkdirObject || f.createObject || (req.bodySize > 0 && f.copyFailsAfter.Some?)
    ensures var out := HandlePut(c, fs, now, f, req, resp);
      out.Returned? && out.err.Some? && out.resp == resp
      && SameAt(fs, out.state, ActionPath(c, req.actionId))
      && (f.mkdirObject || f.createObject ==> SameAt(fs, out.state, ObjectPath(c, req.objectId)))
      && (!f.mkdirObject && !f.createObject ==>
            ObjectPath(c, req.objectId) in out.state && out.state[ObjectPath(c, req.objectId)].Blob?
            && out.state[ObjectPath(c, req.objectId)].data <= req.body)
  {
    Layout.ActionAndObjectDisjoint(c.dir, req.actionId, req.objectId);
  }

  /**
   An index write that completes but whose close fails: the Put reports an
   error, yet the index record is in place, so a later fault-free Get hits.
   */
  lemma FailedCloseStillHits(c: DiskCache, fs: Fs, now: int64, getEnv: Env, put: ProgRequest, get: ProgRequest, resp1: ProgResponse, resp2: ProgResponse)
    requires |put.objectId| > 0 && |put.actionId| > 0 && get.actionId == put.actionId && get.command == CmdGet
    requires getEnv.get == NoGetFaults
    ensures var p := HandlePut(c, fs, now, NoPutFaults.(writeIndex := WriteCloseFails), put, resp1);
      && p.Returned? && p.err.Some? && p.resp == resp1
      && Handler(c, p.state, getEnv, get, resp2)
         == Returned(p.state, resp2.(diskPath := ObjectPath(c, put.objectId), size := put.bodySize, time := Some(now)), None)
  {
    Layout.ActionAndObjectDisjoint(c.dir, put.actionId, put.objectId);
  }
}

=== FILE: hex.dfy ===
/**
 Lower-case hexadecimal rendering of bytes, as Go's `fmt.Sprintf("%02x", b)`
 renders one byte and `fmt.Sprintf("%x", s)` renders a byte slice, together
 with a decoder that inverts it. The decoder is what makes the rendering
 injective, which the on-disk layout relies on.
 */
module Hex {
  import opened Types

  predicate IsDigit(c: char) {
    ('0' <= c <= '9') || ('a' <= c <= 'f')
  }

  /** The lower-case digit for a nibble. */
  function DigitChar(d: nat): (c: char)
    requires d < 16
    ensures IsDigit(c)
  {
    if d < 10 then ('0' as int + d) as char else ('a' as int + d - 10) as char
  }

  /** The nibble a lower-case digit stands for. */
  function DigitValue(c: char): (d: nat)
    requires IsDigit(c)
    ensures d < 16 && DigitChar(d) == c
  {
    if c <= '9' then (c as int - '0' as int) else (c as int - 'a' as int + 10)
  }

  /** `%02x` of one byte: always exactly two digits, high nibble first. */
  function Byte2(b: byte): (h: string)
    ensures |h| == 2 && IsDigit(h[0]) && IsDigit(h[1])
    ensures DigitValue(h[0]) * 16 + DigitValue(h[1]) == b
  {
    [DigitChar(b / 16), DigitChar(b % 16)]
  }

  /** `%x` of a byte slice: two digits per byte, in order; the empty slice gives "". */
  function Encode(s: seq<byte>): (h: string)
    ensures |h| == 2 * |s|
    ensures forall i :: 0 <= i < |h| ==> IsDigit(h[i])
  {
    if |s| == 0 then [] else Byte2(s[0]) + Encode(s[1..])
  }

  /** Parses a string of lower-case digit pairs back into bytes. */
  function Decode(h: string): (r: Option<seq<byte>>)
    ensures r.Some? ==> 2 * |r.value| == |h|
    decreases |h|
  {
    if |h| == 0 then Some([])
    else if |h| == 1 || !IsDigit(h[0]) || !IsDigit(h[1]) then None
    else
      match Decode(h[2..])
      case None => None
      case Some(rest) => Some([(DigitValue(h[0]) * 16 + DigitValue(h[1])) as byte] + rest)
  }

  /** The first two characters of `%x` of a non-empty slice are `%02x` of its first byte. */
  lemma EncodeStartsWithFirstByte(s: seq<byte>)
    requires |s| > 0
    ensures Encode(s)[..2] == Byte2(s[0])
  {
    assert Encode(s) == Byte2(s[0]) + Encode(s[1..]);
  }

  /** Decoding undoes encoding. */
  lemma {:induction false} DecodeEncode(s: seq<byte>)
    ensures Decode(Encode(s)) == Some(s)
  {
    if |s| > 0 {
      var h := Encode(s);
      assert h == Byte2(s[0]) + Encode(s[1..]);
      assert h[2..] == Encode(s[1..]);
      DecodeEncode(s[1..]);
      assert [s[0]] + s[1..] == s;
    }
  }

  /** Encoding undoes a successful decode: the two are inverse bijections. */
  lemma {:induction false} EncodeDecode(h: string, s: seq<byte>)
    requires Decode(h) == Some(s)
    ensures Encode(s) == h
  {
    if |h| > 0 {
      var rest := Decode(h[2..]).value;
      assert s == [(DigitValue(h[0]) * 16 + DigitValue(h[1])) as byte] + rest;
      EncodeDecode(h[2..], rest);
      var b := s[0];
      assert DigitChar(b / 16) == h[0] && DigitChar(b % 16) == h[1];
      assert s[1..] == rest;
      assert Encode(s) == Byte2(b) + Encode(rest);
      assert h == h[..2] + h[2..];
    }
  }

  /** Distinct byte strings render to distinct hex strings. */
  lemma EncodeInjective(a: seq<byte>, b: seq<byte>)
    requires Encode(a) == Encode(b)
    ensures a == b
  {
    DecodeEncode(a);
    DecodeEncode(b);
  }
}

=== FILE: layout.dfy ===
/**
 The sharded key layout shared by the disk and S3 stores: a key `id` in role
 `role` lives at `<%02x of id[0]>/<%x of id>-<suffix>`, where the suffix is
 `a` for an action (index) record and `o` for an object (blob). The disk store
 joins its root directory in front; the S3 store joins its base prefix in
 front at access time.
 */
module Layout {
  import opened Types
  import Hex

  /** The two namespaces that share one directory tree. */
  datatype Role = Action | Object {
    /** The file-name suffix that marks the namespace. */
    function Suffix(): string {
      if Action? then "a" else "o"
    }
  }

  /**
   `filepath.Join(dir, rel)` for a directory already in clean form and a
   relative path that is itself clean: an empty or "." directory adds
   nothing, and a directory that already ends in a separator (the root "/")
   gets no second one.
   */
  function Join(dir: string, rel: string): string {
    if dir == "" || dir == "." then rel
    else if dir[|dir| - 1] == '/' then dir + rel
    else dir + "/" + rel
  }

  /** Joining onto one directory never merges two distinct relative paths. */
  lemma JoinInjective(dir: string, x: string, y: string)
    requires Join(dir, x) == Join(dir, y)
    ensures x == y
  {
    var jx := Join(dir, x);
    if dir == "" || dir == "." {
    } else if dir[|dir| - 1] == '/' {
      assert x == jx[|dir|..] && y == jx[|dir|..];
    } else {
      assert x == jx[|dir| + 1..] && y == jx[|dir| + 1..];
    }
  }

  /**
   The store-relative name of key `id` in `role`. The shard directory is the
   rendering of the first byte, so the key must be non-empty: the source
   indexes `id[0]` and panics on an empty key.
   */
  function RelName(id: seq<byte>, role: Role): (r: string)
    requires |id| > 0
    ensures r == Hex.Encode(id)[..2] + "/" + Hex.Encode(id) + "-" + role.Suffix()
    ensures |r| == 2 * |id| + 5
  {
    Hex.EncodeStartsWithFirstByte(id);
    Hex.Byte2(id[0]) + "/" + Hex.Encode(id) + "-" + role.Suffix()
  }

  /** Two relative names coincide only for the same key in the same role. */
  lemma RelNameInjective(id1: seq<byte>, r1: Role, id2: seq<byte>, r2: Role)
    requires |id1| > 0 && |id2| > 0
    requires RelName(id1, r1) == RelName(id2, r2)
    ensures id1 == id2 && r1 == r2
  {
    var n := RelName(id1, r1);
    var h1, h2 := Hex.Encode(id1), Hex.Encode(id2);
    assert |h1| == |h2|;
    assert n[|n| - 1] == r1.Suffix()[0] == r2.Suffix()[0];
    assert n[3..|n| - 2] == h1;
    assert n[3..|n| - 2] == h2;
    Hex.EncodeInjective(id1, id2);
  }

  /**
   The full name of a key under a root: distinct (key, role) pairs never share
   a name, so in particular an action record never overwrites an object.
   */
  lemma FileNameInjective(dir: string, id1: seq<byte>, r1: Role, id2: seq<byte>, r2: Role)
    requires |id1| > 0 && |id2| > 0
    ensures Join(dir, RelName(id1, r1)) == Join(dir, RelName(id2, r2)) <==> id1 == id2 && r1 == r2
  {
    if Join(dir, RelName(id1, r1)) == Join(dir, RelName(id2, r2)) {
      JoinInjective(dir, RelName(id1, r1), RelName(id2, r2));
      RelNameInjective(id1, r1, id2, r2);
    }
  }

  /** The action name and the object name of any two (non-empty) keys differ. */
  lemma ActionAndObjectDisjoint(dir: string, a: seq<byte>, o: seq<byte>)
    ensures |a| > 0 && |o| > 0 ==> Join(dir, RelName(a, Action)) != Join(dir, RelName(o, Object))
  {
    if |a| > 0 && |o| > 0 {
      FileNameInjective(dir, a, Action, o, Object);
    }
  }
}

=== FILE: protocol.dfy ===
/**
 The session engine: the handshake, the framing of the request stream (a
 request value, followed by one body value for a put with a positive body
 size), and one response per framed request carrying the handler's error.

 The source dispatches every framed request to its own goroutine and writes
 responses under a mutex in completion order. This model runs the handlers
 one after another in request order, which is one of the orders the source
 admits; callers correlate responses by ID.
 */
module Protocol {
  import opened Types

  const CmdGet: string := "get"
  const CmdPut: string := "put"
  const CmdClose: string := "close"

  /** A decoded request; `body` is filled in by the framer. */
  datatype ProgRequest = ProgRequest(
    id: int64,
    command: string,
    actionId: seq<byte>,
    objectId: seq<byte>,
    bodySize: int64,
    body: seq<byte>)

  /** A response; `time` is the Unix second of the stored record, `None` for an unset time. */
  datatype ProgResponse = ProgResponse(
    id: int64,
    knownCommands: seq<string>,
    err: string,
    miss: bool,
    outputId: seq<byte>,
    size: int64,
    time: Option<int64>,
    diskPath: string)

  /** A response with every field at its zero value except the ID. */
  function Blank(id: int64): ProgResponse {
    ProgResponse(id, [], "", false, [], 0, None, "")
  }

  /** The handshake: the zero-ID response that lists the supported commands. */
  function Handshake(cmds: seq<string>): ProgResponse {
    Blank(0).(knownCommands := cmds)
  }

  /**
   What a handler call does: it returns, with the backend's new state, the
   response it filled in and its error (nil or a message); or it panics, which
   ends the whole process, leaving the backend in the state reached so far.
   */
  datatype HandlerOutcome<S> =
    | Returned(state: S, resp: ProgResponse, err: Option<string>)
    | Panicked(state: S)

  /**
   A backend's `Handler`. The `nat` is the request's position in the session;
   a backend uses it to look up the clock and the I/O outcomes of that call.
   */
  type Handler<!S> = (S, nat, ProgRequest, ProgResponse) -> HandlerOutcome<S>

  /** One JSON value of the input stream, as the decoder sees it. */
  datatype JsonValue =
    | RequestValue(id: int64, command: string, actionId: seq<byte>, objectId: seq<byte>, bodySize: int64)
    | BytesValue(data: seq<byte>)
    | Malformed

  /** Whether a request header announces a following body value. */
  predicate CarriesBody(command: string, bodySize: int) {
    command == CmdPut && bodySize > 0
  }

  /** A request the framer can produce: a body exactly when announced, of the announced size. */
  predicate WellFramed(r: ProgRequest) {
    if CarriesBody(r.command, r.bodySize) then |r.body| == r.bodySize else r.body == []
  }

  /** Why a session ends with an error. */
  datatype SessionError =
    | KnownCommandsFailed(msg: string)
    | HandshakeWriteFailed
    | DecodeFailed      // a value that is not valid JSON of the expected shape
    | UnexpectedEof     // the stream ended where a body value was due
    | BadBodySize       // the body value's length differs from the declared size
  {
    function Message(): string {
      match this
      case KnownCommandsFailed(m) => m
      case HandshakeWriteFailed => "write error"
      case DecodeFailed => "decode error"
      case UnexpectedEof => "EOF"
      case BadBodySize => "bad body size"
    }
  }

  /** How the read loop stops: end of input between requests, or a fatal error. */
  datatype Ending = CleanEof | Fatal(error: SessionError)

  /** One turn of the read loop: a framed request and the number of values it used, or the end. */
  datatype Step = Decoded(req: ProgRequest, used: nat) | Stopped(ending: Ending)

  /**
   One turn of the read loop. A body value is consumed exactly when the
   header is a put with a positive body size, and its length must equal the
   declared size.
   */
  function NextRequest(stream: seq<JsonValue>): (st: Step)
    ensures st.Stopped? && st.ending == CleanEof <==> stream == []
    ensures st.Decoded? ==> 1 <= st.used <= |stream| && WellFramed(st.req)
    ensures st.Decoded? ==> (st.used == 2 <==> CarriesBody(st.req.command, st.req.bodySize))
    ensures st.Decoded? ==>
      stream[0] == RequestValue(st.req.id, st.req.command, st.req.actionId, st.req.objectId, st.req.bodySize)
    ensures st.Decoded? && st.used == 2 ==> stream[1] == BytesValue(st.req.body)
  {
    if |stream| == 0 then Stopped(CleanEof)
    else match stream[0]
      case Malformed => Stopped(Fatal(DecodeFailed))
      case BytesValue(_) => Stopped(Fatal(DecodeFailed))
      case RequestValue(id, cmd, a, o, size) =>
        var header := ProgRequest(id, cmd, a, o, size, []);
        if !CarriesBody(cmd, size) then Decoded(header, 1)
        else if |stream| == 1 then Stopped(Fatal(UnexpectedEof))
        else match stream[1]
          case BytesValue(data) =>
            if |data| != size then Stopped(Fatal(BadBodySize))
            else Decoded(header.(body := data), 2)
          case _ => Stopped(Fatal(DecodeFailed))
  }

  /** The requests a stream frames into, and how reading stops. */
  datatype Framing = Framing(requests: seq<ProgRequest>, ending: Ending)

  function Frame(stream: seq<JsonValue>): (f: Framing)
    ensures |f.requests| <= |stream|
    ensures forall i :: 0 <= i < |f.requests| ==> WellFramed(f.requests[i])
    decreases |stream|
  {
    match NextRequest(stream)
    case Stopped(e) => Framing([], e)
    case Decoded(req, used) =>
      var rest := Frame(stream[used..]);
      Framing([req] + rest.requests, rest.ending)
  }

  /** The values a client writes for one request: the header, then the body if one is announced. */
  function EncodeOne(r: ProgRequest): seq<JsonValue> {
    [RequestValue(r.id, r.command, r.actionId, r.objectId, r.bodySize)]
      + (if CarriesBody(r.command, r.bodySize) then [BytesValue(r.body)] else [])
  }

  /** The stream a client writes for a list of requests. */
  function Encode(reqs: seq<ProgRequest>): seq<JsonValue> {
    if |reqs| == 0 then [] else EncodeOne(reqs[0]) + Encode(reqs[1..])
  }

  /** Framing recovers exactly the requests a client wrote, and then sees a clean end of input. */
  lemma {:induction false} FrameEncode(reqs: seq<ProgRequest>)
    requires forall i :: 0 <= i < |reqs| ==> WellFramed(reqs[i])
    ensures Frame(Encode(reqs)) == Framing(reqs, CleanEof)
  {
    if |reqs| > 0 {
      var s := Encode(reqs);
      var one := EncodeOne(reqs[0]);
      assert s == one + Encode(reqs[1..]);
      assert s[|one|..] == Encode(reqs[1..]);
      FrameEncode(reqs[1..]);
      assert [reqs[0]] + reqs[1..] == reqs;
    }
  }

  /** A stream that frames to a clean end is exactly the encoding of the requests framed from it. */
  lemma {:induction false} FrameCleanIsEncoding(stream: seq<JsonValue>)
    ensures Frame(stream).ending == CleanEof ==> stream == Encode(Frame(stream).requests)
    decreases |stream|
  {
    if Frame(stream).ending == CleanEof && NextRequest(stream).Decoded? {
      var used := NextRequest(stream).used;
      FrameCleanIsEncoding(stream[used..]);
      var reqs := Frame(stream).requests;
      assert reqs[0] == NextRequest(stream).req && reqs[1..] == Frame(stream[used..]).requests;
      assert stream[..used] == EncodeOne(reqs[0]);
      assert stream == stream[..used] + stream[used..];
    }
  }

  /** Framing a clean prefix and then the rest is framing the whole. */
  lemma {:induction false} FrameAppendClean(a: seq<JsonValue>, b: seq<JsonValue>)
    requires Frame(a).ending == CleanEof
    ensures Frame(a + b) == Framing(Frame(a).requests + Frame(b).requests, Frame(b).ending)
    decreases |a|
  {
    match NextRequest(a)
    case Stopped(e) =>
      assert a + b == b;
    case Decoded(req, used) =>
      assert NextRequest(a + b) == Decoded(req, used) by {
        assert (a + b)[0] == a[0];
        if used == 2 { assert (a + b)[1] == a[1]; }
      }
      assert (a + b)[used..] == a[used..] + b;
      FrameAppendClean(a[used..], b);
      assert [req] + (Frame(a[used..]).requests + Frame(b).requests)
          == ([req] + Frame(a[used..]).requests) + Frame(b).requests;
  }

  /**
   A fatal error other than running out of input ends reading for good:
   nothing written after the offending value is ever decoded.
   */
  lemma {:induction false} FrameStopsAtFatal(a: seq<JsonValue>, b: seq<JsonValue>)
    requires Frame(a).ending.Fatal? && Frame(a).ending.error != UnexpectedEof
    ensures Frame(a + b) == Frame(a)
    decreases |a|
  {
    assert (a + b)[..|a|] == a;
    match NextRequest(a)
    case Stopped(e) =>
      assert (a + b)[0] == a[0];
      if |a| > 1 { assert (a + b)[1] == a[1]; }
    case Decoded(req, used) =>
      assert NextRequest(a + b) == Decoded(req, used) by {
        assert (a + b)[0] == a[0];
        if used == 2 { assert (a + b)[1] == a[1]; }
      }
      assert (a + b)[used..] == a[used..] + b;
      FrameStopsAtFatal(a[used..], b);
  }

  /**
   A put whose body value has the wrong length ends the session with
   "bad body size", after the requests before it and before any after it.
   */
  lemma BadBodySizeEndsSession(
    before: seq<ProgRequest>, id: int64, a: seq<byte>, o: seq<byte>, size: int64,
    data: seq<byte>, after: seq<JsonValue>)
    requires forall i :: 0 <= i < |before| ==> WellFramed(before[i])
    requires size > 0 && |data| != size
    ensures Frame(Encode(before) + [RequestValue(id, CmdPut, a, o, size), BytesValue(data)] + after)
         == Framing(before, Fatal(BadBodySize))
  {
    var bad := [RequestValue(id, CmdPut, a, o, size), BytesValue(data)];
    FrameEncode(before);
    assert Frame(bad).ending == Fatal(BadBodySize);
    FrameStopsAtFatal(bad, after);
    FrameAppendClean(Encode(before), bad + after);
    assert Encode(before) + bad + after == Encode(before) + (bad + after);
  }

  /** The response written for a handler that returned: its error text, if any, goes into `Err`. */
  function Respond<S>(out: HandlerOutcome<S>): ProgResponse
    requires out.Returned?
  {
    match out.err
    case None => out.resp
    case Some(msg) => out.resp.(err := msg)
  }

  /** The responses of a run of handler calls, the backend states they passed through, and whether one panicked. */
  datatype Served<S> = Served(responses: seq<ProgResponse>, states: seq<S>, state: S, crashed: bool)

  /**
   The k-th request of a run was answered by calling the handler from the
   k-th state: the call returned, its response was written, and the backend
   moved on to the next state.
   */
  ghost predicate AnsweredAt<S>(handler: Handler<S>, reqs: seq<ProgRequest>, n: nat, sv: Served<S>, k: nat)
    requires k < |sv.responses| && k + 1 < |sv.states| && k < |reqs|
  {
    var out := handler(sv.states[k], n + k, reqs[k], Blank(reqs[k].id));
    out.Returned? && sv.responses[k] == Respond(out) && sv.states[k + 1] == out.state
  }

  /**
   Runs the handler on each framed request in turn, starting from a response
   that carries only the request's ID. A panic ends the process: the requests
   after it get no response.
   */
  function Serve<S>(reqs: seq<ProgRequest>, handler: Handler<S>, s: S, n: nat): (sv: Served<S>)
    ensures |sv.states| == |sv.responses| + 1 && sv.states[0] == s
    ensures |sv.responses| <= |reqs|
    ensures sv.crashed <==> |sv.responses| < |reqs|
    ensures forall k :: 0 <= k < |sv.responses| ==> AnsweredAt(handler, reqs, n, sv, k)
    ensures sv.crashed ==>
      var k := |sv.responses|;
      handler(sv.states[k], n + k, reqs[k], Blank(reqs[k].id)) == Panicked(sv.state)
    ensures !sv.crashed ==> sv.state == sv.states[|sv.responses|]
    decreases |reqs|
  {
    if |reqs| == 0 then Served([], [s], s, false)
    else
      var out := handler(s, n, reqs[0], Blank(reqs[0].id));
      match out
      case Panicked(s') => Served([], [s], s', true)
      case Returned(s', _, _) =>
        var rest := Serve(reqs[1..], handler, s', n + 1);
        var sv := Served([Respond(out)] + rest.responses, [s] + rest.states, rest.state, rest.crashed);
        assert forall k :: 1 <= k < |sv.responses| ==> AnsweredAt(handler, reqs, n, sv, k) by {
          forall k | 1 <= k < |sv.responses|
            ensures AnsweredAt(handler, reqs, n, sv, k)
          {
            assert AnsweredAt(handler, reqs[1..], n + 1, rest, k - 1);
            assert reqs[1..][k - 1] == reqs[k];
          }
        }
        sv
  }

  /** How `Run` ends: it returns nil, it returns an error, or a handler panicked and took the process down. */
  datatype Exit = ReturnedNil | ReturnedError(error: SessionError) | Crashed

  /** Everything written to the output, how the session ended and the backend's final state. */
  datatype Session<S> = Session(output: seq<ProgResponse>, exit: Exit, state: S)

  /**
   A whole session. `known` is the backend's `KnownCommands` result and
   `canWrite` whether writing and flushing the handshake succeeds.
   */
  function Run<S>(
    known: Result<seq<string>, string>, canWrite: bool,
    stream: seq<JsonValue>, handler: Handler<S>, s: S): (r: Session<S>)
    ensures known.Failure? ==> r == Session([], ReturnedError(KnownCommandsFailed(known.error)), s)
    ensures known.Success? && !canWrite ==> r.output == [] && r.exit.ReturnedError? && r.state == s
    ensures known.Success? && canWrite ==> |r.output| > 0 && r.output[0] == Handshake(known.value)
    ensures r.exit == ReturnedNil ==>
      stream == Encode(Frame(stream).requests) && |r.output| == 1 + |Frame(stream).requests|
    ensures r.exit.ReturnedError? && known.Success? && canWrite ==>
      Frame(stream).ending == Fatal(r.exit.error) && |r.output| == 1 + |Frame(stream).requests|
    ensures known.Success? && canWrite ==>
      var sv := Serve(Frame(stream).requests, handler, s, 0);
      && (r.exit == Crashed <==> sv.crashed)
      && (!sv.crashed && Frame(stream).ending == CleanEof ==> r.exit == ReturnedNil)
      && (!sv.crashed && Frame(stream).ending.Fatal? ==> r.exit == ReturnedError(Frame(stream).ending.error))
  {
    match known
    case Failure(msg) => Session([], ReturnedError(KnownCommandsFailed(msg)), s)
    case Success(cmds) =>
      if !canWrite then Session([], ReturnedError(HandshakeWriteFailed), s)
      else
        var f := Frame(stream);
        var sv := Serve(f.requests, handler, s, 0);
        var exit :=
          if sv.crashed then Crashed
          else if f.ending == CleanEof then ReturnedNil
          else ReturnedError(f.ending.error);
        FrameCleanIsEncoding(stream);
        Session([Handshake(cmds)] + sv.responses, exit, sv.state)
  }

  /** A handler that leaves the ID and the error text of the response it is given alone. */
  ghost predicate KeepsIdAndErr<S(!new)>(handler: Handler<S>) {
    forall s, n, req, resp :: handler(s, n, req, resp).Returned? ==>
      handler(s, n, req, resp).resp.id == resp.id && handler(s, n, req, resp).resp.err == resp.err
  }

  /** The text a handler's error puts into `Err`: its message, or nothing. */
  function ErrText(err: Option<string>): string {
    if err.Some? then err.value else ""
  }

  /**
   Every response after the handshake answers one framed request: it echoes
   that request's ID, and its `Err` is the handler's error message, or empty
   when the handler returned nil.
   */
  lemma ResponsesEchoRequests<S(!new)>(
    known: Result<seq<string>, string>, canWrite: bool,
    stream: seq<JsonValue>, handler: Handler<S>, s: S)
    requires KeepsIdAndErr(handler)
    requires known.Success? && canWrite
    ensures var r := Run(known, canWrite, stream, handler, s);
      var reqs := Frame(stream).requests;
      var sv := Serve(reqs, handler, s, 0);
      && r.output[1..] == sv.responses
      && forall k :: 0 <= k < |sv.responses| ==>
           sv.responses[k].id == reqs[k].id
           && handler(sv.states[k], k, reqs[k], Blank(reqs[k].id)).Returned?
           && sv.responses[k].err == ErrText(handler(sv.states[k], k, reqs[k], Blank(reqs[k].id)).err)
  {
    var reqs := Frame(stream).requests;
    var sv := Serve(reqs, handler, s, 0);
    forall k | 0 <= k < |sv.responses|
      ensures sv.responses[k].id == reqs[k].id
      ensures handler(sv.states[k], k, reqs[k], Blank(reqs[k].id)).Returned?
      ensures sv.responses[k].err == ErrText(handler(sv.states[k], k, reqs[k], Blank(reqs[k].id)).err)
    {
      assert AnsweredAt(handler, reqs, 0, sv, k);
      var out := handler(sv.states[k], k, reqs[k], Blank(reqs[k].id));
      assert out.resp.id == reqs[k].id && out.resp.err == "";
    }
  }
}

=== FILE: records.dfy ===
/**
 What the stores keep under a name. Both stores write the same index record
 `meta{o, s, t}`; its byte-level JSON form is abstracted: an entry either is
 a record (its bytes decode), or raw object bytes, or something that does not
 decode (a truncated or foreign file).
 */
module Records {
  import opened Types

  /** The index record: the object's key, the declared body size and the put time in Unix seconds. */
  datatype Meta = Meta(outputId: seq<byte>, size: int64, time: int64)

  datatype Entry =
    | Blob(data: seq<byte>)   // an object's raw bytes
    | Record(meta: Meta)      // an encoded index record
    | Corrupt                 // bytes that are not a complete index record

  /** Name `k` holds the same entry (or nothing) in both stores. */
  predicate SameAt(a: map<string, Entry>, b: map<string, Entry>, k: string) {
    (k in a <==> k in b) && (k in a ==> a[k] == b[k])
  }

  /** `json.Unmarshal` of an entry into a `meta`: only an encoded record decodes. */
  function DecodeMeta(e: Entry): Option<Meta> {
    if e.Record? then Some(e.meta) else None
  }
}

=== FILE: s3.dfy ===
/**
 The S3 store. Names use the same sharded layout as the disk store but are
 relative; the configured base prefix is joined in front on every access to
 the bucket. The bucket is a map from key to entry; whether each request to
 it fails, and with which error code, and the clock, are parameters.
 */
module S3 {
  import opened Types
  import opened Protocol
  import opened Records
  import Layout
  import Hex

  /** The store, configured by the prefix joined in front of every key. */
  datatype S3Cache = S3Cache(baseDir: string)

  /** The bucket's objects by key. */
  type Bucket = map<string, Entry>

  /** The error code S3 returns for a key that does not exist. */
  const NoSuchKey: string := "NoSuchKey"

  /** A failed request: an AWS error with its code, or a failure that carries none. */
  datatype RequestError = AwsError(code: string) | TransportError

  /** Whether a GET request reaches the bucket, or fails on the way with the given error. */
  datatype FetchFault = Reachable | Unreachable(error: RequestError)

  /** What one Get observes: how the GET request goes and whether reading its body fails. */
  datatype GetFaults = GetFaults(fetch: FetchFault, readFails: bool)

  /** What one Put observes: whether the object upload and the index upload fail. */
  datatype PutFaults = PutFaults(objectUploadFails: bool, indexUploadFails: bool)

  /** Everything outside the store that one handler call observes. */
  datatype Env = Env(now: int64, get: GetFaults, put: PutFaults)

  const NoGetFaults: GetFaults := GetFaults(Reachable, false)
  const NoPutFaults: PutFaults := PutFaults(false, false)

  /** The commands this backend answers, in the order it advertises them. */
  function KnownCommands(): Result<seq<string>, string> {
    Success([CmdGet, CmdPut, CmdClose])
  }

  function ActionPath(id: seq<byte>): string
    requires |id| > 0
  {
    Layout.RelName(id, Layout.Action)
  }

  function ObjectPath(id: seq<byte>): string
    requires |id| > 0
  {
    Layout.RelName(id, Layout.Object)
  }

  /**
   The store-relative names carry no root: the shard directory (the first
   two hex digits of the key) and the suffixed hex name. The base prefix is
   joined in front only when the bucket is accessed.
   */
  lemma KeyLayout(c: S3Cache, a: seq<byte>, o: seq<byte>)
    requires |a| > 0 && |o| > 0
    ensures ActionPath(a) == Hex.Encode(a)[..2] + "/" + Hex.Encode(a) + "-a"
    ensures ObjectPath(o) == Hex.Encode(o)[..2] + "/" + Hex.Encode(o) + "-o"
    ensures Key(c, ActionPath(a)) != Key(c, ObjectPath(o))
  {
    Layout.ActionAndObjectDisjoint(c.baseDir, a, o);
  }

  /** The bucket key of a relative path: the base prefix joined in front. */
  function Key(c: S3Cache, path: string): string {
    Layout.Join(c.baseDir, path)
  }

  /** The outcome of a GET request. */
  datatype Fetched = Found(entry: Entry) | FetchFailed(error: RequestError)

  /** A GET of `path`: an absent key answers with the NoSuchKey code. */
  function GetFile(c: S3Cache, b: Bucket, path: string, fault: FetchFault): (r: Fetched)
    ensures fault.Reachable? ==> (r.Found? <==> Key(c, path) in b)
    ensures r.Found? ==> Key(c, path) in b && r.entry == b[Key(c, path)]
    ensures fault.Reachable? && r.FetchFailed? ==> r.error == AwsError(NoSuchKey)
  {
    if fault.Unreachable? then FetchFailed(fault.error)
    else if Key(c, path) in b then Found(b[Key(c, path)])
    else FetchFailed(AwsError(NoSuchKey))
  }

  /** A PUT of `path`: on success the key holds exactly the entry, on failure nothing changes. */
  function PutFile(c: S3Cache, b: Bucket, path: string, e: Entry, fails: bool): (Bucket, Option<string>) {
    if fails then (b, Some("PUT " + Key(c, path) + " failed")) else (b[Key(c, path) := e], None)
  }

  /** The index GET answers NoSuchKey: the key is absent, or the request fails with that code. */
  predicate NotFound(c: S3Cache, b: Bucket, f: GetFaults, req: ProgRequest)
    requires |req.actionId| > 0
  {
    match f.fetch
    case Reachable => Key(c, ActionPath(req.actionId)) !in b
    case Unreachable(e) => IsNoSuchKey(e)
  }

  /** The index GET, the read of its body and the decode all succeed. */
  predicate Hit(c: S3Cache, b: Bucket, f: GetFaults, req: ProgRequest)
    requires |req.actionId| > 0
  {
    var k := Key(c, ActionPath(req.actionId));
    f.fetch.Reachable? && !f.readFails && k in b && b[k].Record?
  }

  /** A GET error that means "no such key". */
  predicate IsNoSuchKey(e: RequestError) {
    e.AwsError? && e.code == NoSuchKey
  }

  /**
   Looks up the index record of the request's action key. A NoSuchKey answer
   is a clean miss; every other failure is reported and also forces a miss;
   a readable record fills in size and time only.
   */
  function HandleGet(c: S3Cache, b: Bucket, f: GetFaults, req: ProgRequest, resp: ProgResponse): (out: HandlerOutcome<Bucket>)
    ensures out.state == b
    ensures out.Panicked? <==> |req.actionId| == 0
    ensures |req.actionId| > 0 && NotFound(c, b, f, req) ==> out == Returned(b, resp.(miss := true), None)
    ensures out.Returned? && out.err.Some? <==> |req.actionId| > 0 && !NotFound(c, b, f, req) && !Hit(c, b, f, req)
    ensures out.Returned? && out.err.Some? ==> out.resp == resp.(miss := true)
    ensures |req.actionId| > 0 && Hit(c, b, f, req) ==>
      var m := b[Key(c, ActionPath(req.actionId))].meta;
      out == Returned(b, resp.(size := m.size, time := Some(m.time)), None)
  {
    if |req.actionId| == 0 then Panicked(b)
    else
      var path := ActionPath(req.actionId);
      match GetFile(c, b, path, f.fetch)
      case FetchFailed(e) =>
        if IsNoSuchKey(e) then Returned(b, resp.(miss := true), None)
        else Returned(b, resp.(miss := true), Some("GET " + Key(c, path) + " failed"))
      case Found(entry) =>
        if f.readFails then Returned(b, resp.(miss := true), Some("read " + Key(c, path) + " failed"))
        else match DecodeMeta(entry)
          case None => Returned(b, resp.(miss := true), Some("invalid index record"))
          case Some(m) => Returned(b, resp.(size := m.size, time := Some(m.time)), None)
  }

  /**
   Uploads the object when a body is announced, discarding that upload's
   error, then uploads the index record `{ObjectID, BodySize, now}`; only the
   index upload decides the outcome.
   */
  function HandlePut(c: S3Cache, b: Bucket, now: int64, f: PutFaults, req: ProgRequest, resp: ProgResponse): (out: HandlerOutcome<Bucket>)
    ensures |req.objectId| == 0 ==> out == Panicked(b)
    ensures |req.objectId| > 0 && |req.actionId| > 0 ==>
      out.Returned? && (out.err.None? <==> !f.indexUploadFails)
    ensures out.Returned? && out.err.Some? ==> out.resp == resp
    ensures |req.objectId| > 0 && |req.actionId| > 0 && out.Returned? && out.err.None? ==>
      && out.resp == resp.(diskPath := ObjectPath(req.objectId))
      && Key(c, ActionPath(req.actionId)) in out.state
      && out.state[Key(c, ActionPath(req.actionId))] == Record(Meta(req.objectId, req.bodySize, now))
    ensures |req.objectId| > 0 ==>
      var ok := Key(c, ObjectPath(req.objectId));
      (ok in out.state && out.state[ok] == Blob(req.body)) || SameAt(b, out.state, ok)
    ensures |req.objectId| > 0 && req.bodySize > 0 && !f.objectUploadFails ==>
      Key(c, ObjectPath(req.objectId)) in out.state && out.state[Key(c, ObjectPath(req.objectId))] == Blob(req.body)
    ensures |req.objectId| > 0 && (req.bodySize <= 0 || f.objectUploadFails) ==>
      SameAt(b, out.state, Key(c, ObjectPath(req.objectId)))
    ensures forall k :: !PutKey(c, req, k) ==> SameAt(b, out.state, k)
    ensures |req.objectId| > 0 && |req.actionId| == 0 ==> out.Panicked?
    ensures |req.objectId| > 0 && |req.actionId| > 0 && f.indexUploadFails ==>
      SameAt(b, out.state, Key(c, ActionPath(req.actionId)))
  {
    Layout.ActionAndObjectDisjoint(c.baseDir, req.actionId, req.objectId);
    if |req.objectId| == 0 then Panicked(b)
    else
      var name := ObjectPath(req.objectId);
      var b1 := if req.bodySize > 0 then PutFile(c, b, name, Blob(req.body), f.objectUploadFails).0 else b;
      if |req.actionId| == 0 then Panicked(b1)
      else
        var (b2, err) := PutFile(c, b1, ActionPath(req.actionId), Record(Meta(req.objectId, req.bodySize, now)), f.indexUploadFails);
        if err.Some? then Returned(b2, resp, err)
        else Returned(b2, resp.(diskPath := name), None)
  }

  /** A key a Put of `req` may write: the object's or the index record's. */
  predicate PutKey(c: S3Cache, req: ProgRequest, k: string) {
    || (|req.objectId| > 0 && k == Key(c, ObjectPath(req.objectId)))
    || (|req.actionId| > 0 && k == Key(c, ActionPath(req.actionId)))
  }

  /**
   Dispatches on the command. Close and any command this backend does not
   advertise return nil and leave the response alone; Get and Put never touch
   the response's ID or error text.
   */
  function Handler(c: S3Cache, b: Bucket, env: Env, req: ProgRequest, resp: ProgResponse): (out: HandlerOutcome<Bucket>)
    ensures req.command == CmdClose || req.command !in KnownCommands().value ==> out == Returned(b, resp, None)
    ensures out.Returned? ==> out.resp.id == resp.id && out.resp.err == resp.err
  {
    if req.command == CmdClose then Returned(b, resp, None)
    else if req.command == CmdGet then HandleGet(c, b, env.get, req, resp)
    else if req.command == CmdPut then HandlePut(c, b, env.now, env.put, req, resp)
    else Returned(b, resp, None)
  }

  /** The backend as the session engine sees it; `envs(n)` is what the n-th call observes. */
  function SessionHandler(c: S3Cache, envs: nat -> Env): Handler<Bucket> {
    (b: Bucket, n: nat, req: ProgRequest, resp: ProgResponse) => Handler(c, b, envs(n), req, resp)
  }

  /** So every response of an S3-backed session echoes its request's ID and carries only the handler's error. */
  lemma SessionHandlerKeepsIdAndErr(c: S3Cache, envs: nat -> Env)
    ensures KeepsIdAndErr(SessionHandler(c, envs))
  {
    forall b: Bucket, n: nat, req: ProgRequest, resp: ProgResponse
      ensures SessionHandler(c, envs)(b, n, req, resp).Returned? ==>
        SessionHandler(c, envs)(b, n, req, resp).resp.id == resp.id
        && SessionHandler(c, envs)(b, n, req, resp).resp.err == resp.err
    {
      var _ := Handler(c, b, envs(n), req, resp);
    }
  }

  /**
   Round trip: a successful Put followed by a Get of the same action key is a
   hit with the Put's body size and clock; it reports no path and no output
   ID, and does not clear or set the miss flag.
   */
  lemma PutThenGet(c: S3Cache, b: Bucket, putEnv: Env, getEnv: Env, put: ProgRequest, get: ProgRequest, resp1: ProgResponse, resp2: ProgResponse)
    requires put.command == CmdPut && get.command == CmdGet
    requires |put.objectId| > 0 && |put.actionId| > 0 && get.actionId == put.actionId
    requires !putEnv.put.indexUploadFails && getEnv.get == NoGetFaults
    ensures var p := Handler(c, b, putEnv, put, resp1);
      && p == Returned(p.state, resp1.(diskPath := ObjectPath(put.objectId)), None)
      && (put.bodySize > 0 && !putEnv.put.objectUploadFails ==>
            p.state[Key(c, ObjectPath(put.objectId))] == Blob(put.body))
      && Handler(c, p.state, getEnv, get, resp2)
         == Returned(p.state, resp2.(size := put.bodySize, time := Some(putEnv.now)), None)
  {
  }

  /**
   The dropped object-upload error: a Put whose object upload fails still
   succeeds, and a following Get reports a hit although the object key holds
   nothing.
   */
  lemma LostObjectStillHits(c: S3Cache, b: Bucket, put: ProgRequest, get: ProgRequest, now: int64, resp1: ProgResponse, resp2: ProgResponse)
    requires put.command == CmdPut && get.command == CmdGet
    requires |put.objectId| > 0 && |put.actionId| > 0 && get.actionId == put.actionId
    requires put.bodySize > 0 && Key(c, ObjectPath(put.objectId)) !in b
    ensures var p := Handler(c, b, Env(now, NoGetFaults, PutFaults(true, false)), put, resp1);
      && p.Returned? && p.err.None?
      && Key(c, ObjectPath(put.objectId)) !in p.state
      && var g := Handler(c, p.state, Env(now, NoGetFaults, NoPutFaults), get, resp2);
         g.Returned? && g.err.None? && g.resp.size == put.bodySize
  {
    Layout.FileNameInjective(c.baseDir, put.actionId, Layout.Action, put.objectId, Layout.Object);
  }
}

=== FILE: session.dfy ===
/**
 A whole session against the disk backend, the backend the command-line
 entry point wires to standard input and output.
 */
module DiskSession {
  import opened Types
  import opened Protocol
  import Disk

  /**
   A client that writes a put (with its body, if announced) and then a get
   of the same action key, and closes its input, receives the handshake, a
   success for the put carrying the object's path, and a hit reporting the
   put's size and time; the session then returns nil.
   */
  lemma DiskPutThenGetSession(
    c: Disk.DiskCache, fs: Disk.Fs, envs: nat -> Disk.Env, put: ProgRequest, get: ProgRequest)
    requires put.command == CmdPut && get.command == CmdGet
    requires WellFramed(put) && WellFramed(get)
    requires |put.objectId| > 0 && |put.actionId| > 0 && get.actionId == put.actionId
    requires envs(0).put == Disk.NoPutFaults && envs(1).get == Disk.NoGetFaults
    ensures var r := Run(Disk.KnownCommands(), true, Encode([put, get]), Disk.SessionHandler(c, envs), fs);
      && r.exit == ReturnedNil
      && r.output == [
           Handshake([CmdGet, CmdPut, CmdClose]),
           Blank(put.id).(diskPath := Disk.ObjectPath(c, put.objectId)),
           Blank(get.id).(diskPath := Disk.ObjectPath(c, put.objectId), size := put.bodySize, time := Some(envs(0).now))]
  {
    FrameEncode([put, get]);
    var h := Disk.SessionHandler(c, envs);
    var sv := Serve([put, get], h, fs, 0);
    Disk.PutThenGet(c, fs, envs(0), envs(1), put, get, Blank(put.id), Blank(get.id));
    assert AnsweredAt(h, [put, get], 0, sv, 0);
    assert AnsweredAt(h, [put, get], 0, sv, 1);
  }
}

=== FILE: types.dfy ===
/** Basic value types shared by every module of the model. */
module Types {

  /** One byte of a Go `[]byte`. */
  type byte = b: int | 0 <= b < 0x100

  /** Go's `int64`: the width of request IDs, body sizes and Unix times. */
  type int64 = x: int | -0x8000_0000_0000_0000 <= x < 0x8000_0000_0000_0000

  /** An optional value, used where Go uses a nil pointer or a nil error. */
  datatype Option<+T> = None | Some(value: T)

  /** A value or an error, used where Go returns `(T, error)`. */
  datatype Result<+T, +E> = Success(value: T) | Failure(error: E)
}
